=== FILE: README.md ===
# A verified model of the `reliable.c` sliding-window transport

`reliable.c` implements a reliable, in-order byte stream over an unreliable
datagram service using a sliding window with cumulative acknowledgements.
Each connection is a session (`struct reliable_state`). All live sessions are
kept in the global list `rel_list`. A session has:

- a **send side**: the send buffer of unacknowledged segments, `snduna`,
  `sndnxt` and `snddone`;
- a **receive side**: the receive buffer of out-of-order segments, `rcvnxt`
  and `rcvdone`.

The entry points are `rel_create`, `rel_destroy`, `rel_recvpkt` (for acks
and for data), `rel_read` (fills the send window from the application's
input), `rel_output` (hands buffered in-order segments to the application)
and `rel_timer` (resends timed-out segments).

This Dafny project models that state machine in the code's own imperative
form:

- `Reliable.Session` is a class whose methods update its fields in place.
- `Reliable.Registry` holds `rel_list` as a sequence of sessions, newest
  first.
- The loops of `rel_read`, `rel_output`, the coalescing step of
  `rel_recvpkt` and the per-session sweep of `rel_timer` are methods in
  `Loops`, each with its loop invariants. Three are proved to compute a
  specification function of `Protocol`:
  - `FillWindow` for `rel_read`;
  - `Deliver` for `rel_output`;
  - `Due` and `Refresh` for the `rel_timer` sweep.

  The coalescing loop, `Coalesce`, is specified by its own contract: it
  finds the least sequence number not buffered.
- The outer loop of `rel_timer`, over the registry, is `Registry.Timer`.
  `TimerAsWritten` is that loop as the code writes it (see "## Findings").
- The properties the protocol promises are lemmas about those functions and
  about the session invariants in `Invariants`.

Module layout:

| file | module | contents |
|---|---|---|
| `options.dfy` | `Options` | `Option` |
| `packets.dfy` | `Packets` | segment fields, checksum stamping and validation, `makeack` |
| `buffers.dfy` | `Buffers` | the ordered packet buffer of `buffer.h` |
| `conduit.dfy` | `Conduit` | the application's input as `conn_input` hands it out |
| `protocol.dfy` | `Protocol` | what the loops compute, as functions, and lemmas about them |
| `invariants.dfy` | `Invariants` | the send and receive invariants of a live session and their preservation |
| `loops.dfy` | `Loops` | the loops of `reliable.c` |
| `reliable.dfy` | `Reliable` | sessions, the registry, the entry points |

The session invariant `Session.Valid` combines two parts:

- **Send side.** The send buffer is strictly ordered by sequence number.
  Every buffered segment lies below `sndnxt` and has been sent.
- **Receive side.** Until the end of the stream, the application has
  received exactly segments 1 to `rcvnxt - 1`, in order, once each. Every
  buffered segment lies above `rcvnxt`. Once `rcvdone` is set, the terminal
  marker heads the receive buffer, and afterwards only that marker is ever
  handed out again.

Every entry point is proved to keep this invariant.

Three session fields stand for the connection's environment:

- `sent` lists every packet handed to `conn_sendpkt`;
- `delivered` lists every buffered segment whose payload went to
  `conn_output`;
- `input` is the queue `conn_input` draws from.

The clock (`mstime`) becomes a parameter `now`. The checksum (`cksum` of
rlib) becomes a function-valued parameter `sum`.

## Model

| member | source | states |
|---|---|---|
| Packets.Accepts | reliable.c:108-113 | a datagram of `n` bytes is accepted exactly when `n` equals its length field and its checksum field equals the checksum of the segment with that field zeroed |
| Packets.IsTerminal | reliable.c:171 | a segment is the end-of-stream marker exactly when its length field is 12, that is, when it has no payload |
| Packets.MakeAck | reliable.c:97-105 | the ack is 8 bytes long, carries `rcvnxt` as its ack number and no payload, and passes the receiver's length and checksum validation |
| Packets.Segment | reliable.c:157-160 | a data segment carries the given sequence number and payload, has length 12 plus the payload size, passes validation, and is the terminal marker exactly when its payload is empty |
| Buffers.Contains | reliable.c:128 | `buffer_contains` is true exactly when some entry has the given sequence number |
| Buffers.Insert | reliable.c:128-130 | `buffer_insert` of an absent key keeps the buffer strictly ordered and adds exactly that entry |
| Buffers.First | reliable.c:169 | `buffer_get_first` is NULL exactly on an empty buffer, otherwise the entry with the least key |
| Buffers.RemoveFirst | reliable.c:175 | `buffer_remove_first` removes exactly the first entry (as a multiset), and the rest stay ordered and above it |
| Buffers.RemoveBelow | reliable.c:123 | `buffer_remove(b, ackno)` keeps exactly the entries with key at least `ackno`, and order is kept |
| Buffers.InsertLast | reliable.c:162 | inserting a key above every key present appends it at the end |
| Buffers.ContiguousRun | reliable.c:133-135 | in an ordered buffer holding every key of `[lo, hi)` and nothing below `lo`, those keys are its first `hi - lo` entries |
| Buffers.Upper | reliable.c:133-135 | every key lies below this bound, so the coalescing loop terminates |
| Conduit.ConnInput | reliable.c:148 | `conn_input` returns at most 500 bytes per call, and returns -1 exactly when the input is at its end |
| Conduit.ConnInputConserves | reliable.c:148 | the bytes returned, followed by those still queued, are the bytes that were queued |
| Protocol.FillWindow | reliable.c:146-165 | what the `rel_read` loop sends from `sndnxt` up to a limit: when the fill sends a segment, it leaves `sndnxt` at most one above the limit, that is at most `snduna + window + 1` |
| Protocol.FillCount | reliable.c:146-156 | the fill sends exactly as many segments as the window has room for or as `conn_input` returns data or -1 before its first 0, whichever is fewer: a 0 stops the loop, while data and -1 each send a segment and the loop goes on |
| Protocol.FillNumbered | reliable.c:146-165 | filling the window numbers its segments consecutively from `sndnxt` |
| Protocol.FillInWindow | reliable.c:146-160 | every segment sent by `rel_read` has a sequence number of at most `snduna + window`, length 12 plus its payload, at most 500 payload bytes, and a checksum the peer accepts |
| Protocol.FillDone | reliable.c:153-156 | `snddone` ends set exactly when it was set before or a terminal segment was sent |
| Protocol.FillConserves | reliable.c:146-165 | the payloads sent, followed by the input left, are the input the fill started from: nothing is lost or repeated |
| Protocol.Deliver | reliable.c:168-177 | a delivery pass hands out a prefix of the buffer, all below `rcvnxt` |
| Protocol.DeliverEnds | reliable.c:169-176 | a pass ends either on the terminal marker (handed out last and left at the head) or at the first entry not below `rcvnxt` (everything before it removed); no earlier segment handed out is terminal |
| Protocol.DeliverKeepsOrder | reliable.c:175 | a delivery pass leaves an ordered buffer ordered |
| Protocol.DeliverInOrder | reliable.c:169-175 | payloads are handed out in strictly increasing sequence order, and every entry at or above `rcvnxt` stays buffered |
| Protocol.DeliverRun | reliable.c:132-137 | after coalescing to `hi`, the pass hands out segments numbered `lo, lo+1, …`; it hands out all of `[lo, hi)` and leaves only keys above `hi`, unless the terminal marker stops it and stays at the head |
| Protocol.IsDue | reliable.c:183 | an entry is due for retransmission exactly when at least `timeout` has passed since it was last sent: `timeout <= now - stamp` |
| Protocol.Due | reliable.c:181-186 | a sweep resends exactly the packets of entries at least `timeout` old, unchanged |
| Protocol.DueInOrder | reliable.c:181-184 | a sweep resends in strictly increasing sequence order |
| Protocol.Refresh | reliable.c:181-187 | after a sweep the buffer has the same packets in the same order; due entries are restamped `now` and the others keep their stamp; order is kept |
| Invariants.IdleOutput | reliable.c:168-177 | outside an in-order arrival, a delivery pass hands out nothing before the end of the stream, and only the terminal marker again after it; the receive invariant is kept |
| Invariants.InOrderArrival | reliable.c:127-137 | inserting segment `rcvnxt`, coalescing and delivering keeps in-order, exactly-once delivery |
| Invariants.RunDelivered | reliable.c:132-137 | a pass up to the coalesced `rcvnxt` appended to an in-order stream keeps the receive invariant |
| Invariants.SendOne | reliable.c:157-164 | the segment numbered `sndnxt` is not yet buffered and `buffer_insert` puts it last; buffering and sending it, then incrementing `sndnxt`, keeps the send invariant |
| Invariants.RefreshKeepsSend | reliable.c:181-187 | a sweep keeps the send invariant |
| Loops.FillLoop | reliable.c:145-166 | the `rel_read` loop sends and buffers (stamped `now`) exactly the segments of `FillWindow`, leaves the input and `snddone` as the fill ends them, and keeps the send invariant |
| Loops.Transmit | reliable.c:162-163 | one send of the `rel_read` loop: `buffer_insert` of the new segment stamped `now` appends it to the send buffer, `conn_sendpkt` records it as sent, and the send invariant holds with `sndnxt` one higher |
| Loops.DeliverLoop | reliable.c:168-177 | the `rel_output` loop computes `Deliver` on the receive buffer |
| Loops.SweepLoop | reliable.c:181-187 | the per-session sweep of `rel_timer` yields `Refresh` of the send buffer and resends `Due` |
| Loops.Coalesce | reliable.c:133-135 | the coalescing loop ends at the least number from `rcvnxt` up that is not buffered, and every number it steps past is buffered |
| Reliable.Unlink | reliable.c:89-91 | `rel_destroy` unlinks the session from `rel_list`: the list without that session, the others in their order |
| Reliable.UnlinkDistinct | reliable.c:89-91 | unlinking from a list without repetitions removes exactly that session and keeps the rest distinct |
| Reliable.Session.constructor | reliable.c:59-78 | a new session has `snduna = 0`, `sndnxt = rcvnxt = 1`, both flags clear, empty buffers, the configured timeout and window, and it is valid |
| Reliable.Session.Finished | reliable.c:114 | the teardown condition: the terminal marker has been delivered, the end of input has been sent, and `sndnxt == snduna` |
| Reliable.Session.Read | reliable.c:145-166 | `rel_read` fills the window up to `snduna + window` as `FillWindow` specifies, changes nothing on the receive side, and keeps the session invariant |
| Reliable.Session.Output | reliable.c:168-177 | `rel_output` hands out what `Deliver` specifies, sets `rcvdone` on reaching the terminal marker, changes nothing on the send side, and keeps the invariant |
| Reliable.Session.Retransmit | reliable.c:181-187 | the sweep resends `Due`, restamps as `Refresh` specifies, changes nothing else, and keeps the invariant |
| Reliable.Session.OnAck | reliable.c:121-125 | `snduna` becomes the ack number as is; acknowledged entries are purged; the window is refilled; the receive side is unchanged |
| Reliable.Session.Arrive | reliable.c:127-137 | the in-order segment is buffered, `rcvnxt` moves to the first number above it that is not buffered, and a delivery pass follows |
| Reliable.Session.OnData | reliable.c:126-142 | a data segment after the end or beyond the window has no effect; otherwise exactly one ack carrying the final `rcvnxt` is sent; a stale segment changes nothing else; one ahead is buffered unless already present; the in-order one triggers coalescing and delivery |
| Reliable.Session.RecvPkt | reliable.c:107-143 | a wrong length or checksum has no effect at all; a finished session is destroyed, with nothing sent and nothing handed to the application; otherwise an 8-byte packet is an ack and any other is data, and the invariant is kept |
| Reliable.Registry.Create | reliable.c:46-81 | without a connection the result is NULL and the registry is unchanged; otherwise a fresh, valid session in its initial state is placed at the front |
| Reliable.Registry.Destroy | reliable.c:83-95 | both buffers are emptied and exactly that session leaves the registry, which stays free of repetitions |
| Reliable.Registry.Timer | reliable.c:179-189 | (corrected) every registered session gets its sweep once, and each valid session stays valid |
| Reliable.TimerAsWritten | reliable.c:180-188 | the loop as written: with two or more sessions it never ends and sweeps only the head of `rel_list`; with at most one it ends after sweeping it |

## Left out

- I/O: the socket layer, `conn_sendpkt`, `conn_output` and `conn_destroy` (reliable.c:92) are not modelled as operations. The effects of `conn_sendpkt` and `conn_output` are recorded in the session fields `sent` and `delivered`. Closing the connection is recorded only by the session's ghost `closed` flag.
- I/O: `conn_input` is a queue of input events. A repeated end of input is a repeated `EndOfInput` entry.
- Clock: `mstime` is the parameter `now`.
- Checksum: the `cksum` code of rlib is not part of this model. It is the oracle `sum`. Validation is `n == len` plus the checksum recomputed over the segment with its checksum field zeroed.
- Memory: `xmalloc`, `free` and the node structure of `buffer.c` are not modelled. The buffers are values (strictly ordered sequences) assigned to the session's fields.
- Buffer internals: `buffer.h` and `buffer.c` are not part of this model. Their operations are modelled by their contract, an ordered map keyed by sequence number.
- Buffers.Insert: models only `buffer_insert` of an absent key. That is the only way `reliable.c` calls it: it checks `buffer_contains` first at line 128, and `rel_read` always inserts a fresh `sndnxt`.
- Loops: the loops run on values; their results are committed to the fields afterwards. Aliasing between the buffers of different sessions is therefore not modelled.
- Integer widths: sequence and ack numbers are unbounded naturals.
  - The 32-bit wraparound of `seqno`, `ackno` and `int` is not modelled.
  - The signed/unsigned comparison at reliable.c:126 is not modelled.
  - `htons`/`htonl` byte order is not modelled.
- Loops.FillLoop: one `now` stamps every segment of a fill. `rel_read` calls `mstime` for each segment it buffers (reliable.c:162), so later segments could carry a later time. The same holds for Reliable.Session.Read, which runs this loop.
- Reliable.Session.Read: see the Loops.FillLoop line; one `now` per fill.
- Loops.SweepLoop: one `now` stamps every due entry of a sweep and decides which entries are due. `rel_timer` calls `mstime` for each entry (reliable.c:182).
- Reliable.Session.Retransmit: one `now` per sweep. `rel_timer` reads `mstime` once per entry (reliable.c:182), so later entries could see a later time.
- Reliable.Session.Output: after `buffer_remove_first`, `rel_output` steps with `b->next` on the node it has just removed (reliable.c:175, 169). Whether that node is freed depends on `buffer.c`, which is not part of this model. The model takes the new first entry. That is what the step reads if the removed node is still intact, so a possible use after free is not modelled.
- Packets.Segment: the ack number of data segments is left uninitialised by `rel_read` (reliable.c:147-160). The model sets it to 0.
- Packets.Accepts: the length of the received `data` is not tied to `n`. Every accepted datagram whose `n` is not 8 takes the data branch (reliable.c:121, 126). This includes datagrams shorter than 8 bytes and data segments of 9 to 11 bytes whose `len == n`.
- Reliable.Session.Output: when such a short segment is delivered, `rel_output` passes `len - 12`, a negative length, to `conn_output` (reliable.c:170). The `delivered` field records the segment, not the length passed, so that negative length is not modelled.
- Window: the code lets `sndnxt` reach `snduna + window + 1`, one segment more than a window of `window`, because the loop test is `sndnxt <= snduna + window` (reliable.c:146). The model follows the code.
- Acks: `snduna` takes any ack number unchecked and can move backwards (reliable.c:122). The model follows the code. So no bound on `sndnxt - snduna` holds in general. A stale ack that arrives late can leave `sndnxt - snduna` above `window + 1`. An ack above `sndnxt` makes `rel_read` send up to `ackno + window`, so any number of segments can be in flight.
- Connection creation: `conn_create` is outside this model. Its result is the `created` parameter of `Registry.Create`, and `ss` is not modelled.

## Findings

| source | as written | input that shows it | evidently intended | confidence | as-written member | corrected member |
|---|---|---|---|---|---|---|
| reliable.c:180-184 | the outer loop of `rel_timer` steps with `cur = rel_list->next` and sweeps `rel_list` on every round | two registered sessions: `cur` becomes the second session and stays there, the loop never ends, and only the head session is ever swept | step with `cur = cur->next` and sweep `cur`, so that every session is swept once per timer tick | not executed | Reliable.TimerAsWritten | Reliable.Registry.Timer |

=== FILE: buffers.dfy ===
/**
 * The ordered packet buffer of `buffer.h`: entries kept in strictly increasing
 * order of their packet's sequence number, each with a timestamp (the time of
 * insertion or of the last retransmission).
 */
module Buffers {
  import opened Options
  import opened Packets

  datatype Slot = Slot(packet: Packet, stamp: int)

  /** Entries are keyed by the sequence number of the packet they hold. */
  function Key(s: Slot): nat
  {
    s.packet.seqno
  }

  /** Keys strictly increase along the buffer, so no key occurs twice. */
  ghost predicate Sorted(b: seq<Slot>)
  {
    forall i, j :: 0 <= i < j < |b| ==> Key(b[i]) < Key(b[j])
  }

  /** `buffer_contains`: some entry has key `k`. */
  function Contains(b: seq<Slot>, k: int): (r: bool)
    ensures r <==> exists s :: s in b && Key(s) == k
  {
    if b == [] then false
    else Key(b[0]) == k || Contains(b[1..], k)
  }

  /** `buffer_insert` of a key not yet present: the buffer stays ordered and gains exactly that entry. */
  function Insert(b: seq<Slot>, s: Slot): (r: seq<Slot>)
    requires Sorted(b) && !Contains(b, Key(s))
    ensures Sorted(r)
    ensures |r| == |b| + 1
    ensures forall t :: t in r <==> t in b || t == s
  {
    if b == [] then [s]
    else
      Split(b);
      SortedTail(b);
      if Key(s) < Key(b[0]) then
        SortedCons(s, b);
        [s] + b
      else
        var tail := Insert(b[1..], s);
        SortedCons(b[0], tail);
        [b[0]] + tail
  }

  /** Putting an entry in front of an ordered buffer whose keys all exceed its own keeps it ordered. */
  lemma SortedCons(s: Slot, b: seq<Slot>)
    requires Sorted(b)
    requires forall t :: t in b ==> Key(s) < Key(t)
    ensures Sorted([s] + b)
  {
    forall i, j | 0 <= i < j < |[s] + b| ensures Key(([s] + b)[i]) < Key(([s] + b)[j]) {
      assert ([s] + b)[j] == b[j - 1];
      assert b[j - 1] in b;
      if i > 0 { assert ([s] + b)[i] == b[i - 1]; }
    }
  }

  /** `buffer_get_first`: the entry with the least key, or NULL when the buffer is empty. */
  function First(b: seq<Slot>): (r: Option<Slot>)
    requires Sorted(b)
    ensures r.None? <==> b == []
    ensures r.Some? ==> r.value in b && forall t :: t in b ==> Key(r.value) <= Key(t)
  {
    if b == [] then None else Some(b[0])
  }

  /** `buffer_remove_first`: drops the entry with the least key and keeps the others in order. */
  function RemoveFirst(b: seq<Slot>): (r: seq<Slot>)
    requires Sorted(b) && b != []
    ensures Sorted(r)
    ensures multiset(r) == multiset(b) - multiset{b[0]}
    ensures forall t :: t in r ==> Key(b[0]) < Key(t)
  {
    assert b == [b[0]] + b[1..];
    b[1..]
  }

  /**
   * `buffer_remove(b, k)`, the cumulative purge: exactly the entries with key
   * below `k` go, the others stay, in their order.
   */
  function RemoveBelow(b: seq<Slot>, k: int): (r: seq<Slot>)
    ensures forall t :: t in r <==> t in b && Key(t) >= k
    ensures Sorted(b) ==> Sorted(r)
  {
    if b == [] then []
    else
      var tail := RemoveBelow(b[1..], k);
      Split(b);
      if Key(b[0]) < k then tail
      else
        assert Sorted(b) ==> Sorted([b[0]] + tail) by {
          if Sorted(b) { SortedTail(b); SortedCons(b[0], tail); }
        }
        [b[0]] + tail
  }

  /** A non-empty buffer is its first entry followed by the rest. */
  lemma Split(b: seq<Slot>)
    requires b != []
    ensures b == [b[0]] + b[1..]
    ensures forall t :: t in b <==> t == b[0] || t in b[1..]
  {
  }

  /** Behind the first entry of an ordered buffer lies an ordered buffer of larger keys. */
  lemma SortedTail(b: seq<Slot>)
    requires Sorted(b) && b != []
    ensures Sorted(b[1..])
    ensures forall t :: t in b[1..] ==> Key(b[0]) < Key(t)
  {
    forall t | t in b[1..] ensures Key(b[0]) < Key(t) {
      var j :| 0 <= j < |b[1..]| && b[1..][j] == t;
      assert b[j + 1] == t;
    }
  }

  /**
   * In an ordered buffer whose keys are all at least `lo` and which holds every
   * key of `[lo, hi)`, those keys are its first `hi - lo` entries, in order.
   */
  lemma {:induction false} ContiguousRun(b: seq<Slot>, lo: int, hi: int)
    requires Sorted(b)
    requires forall t :: t in b ==> Key(t) >= lo
    requires forall k :: lo <= k < hi ==> Contains(b, k)
    ensures hi - lo <= |b|
    ensures forall i :: 0 <= i < hi - lo ==> Key(b[i]) == lo + i
  {
    if lo < hi {
      assert Contains(b, lo);
      Split(b);
      SortedTail(b);
      assert Key(b[0]) == lo by {
        assert b[0] in b;
        var s :| s in b && Key(s) == lo;
        assert Key(b[0]) <= Key(s);
      }
      forall k | lo + 1 <= k < hi ensures Contains(b[1..], k) {
        assert Contains(b, k);
      }
      ContiguousRun(b[1..], lo + 1, hi);
      forall i | 0 <= i < hi - lo ensures Key(b[i]) == lo + i {
        if i > 0 { assert b[i] == b[1..][i - 1]; }
      }
    }
  }

  /** Appending an entry whose key exceeds every key present is what `buffer_insert` does with it. */
  lemma {:induction false} InsertLast(b: seq<Slot>, s: Slot)
    requires Sorted(b)
    requires forall t :: t in b ==> Key(t) < Key(s)
    ensures !Contains(b, Key(s))
    ensures Insert(b, s) == b + [s]
  {
    if b != [] {
      Split(b);
      SortedTail(b);
      InsertLast(b[1..], s);
    }
  }

  /** One more than the largest key present: every key lies below it. */
  function Upper(b: seq<Slot>): (u: nat)
    requires Sorted(b)
    ensures forall t :: t in b ==> Key(t) < u
  {
    if b == [] then 0
    else
      assert forall t :: t in b ==> Key(t) <= Key(b[|b| - 1]) by {
        forall t | t in b ensures Key(t) <= Key(b[|b| - 1]) {
          var j :| 0 <= j < |b| && b[j] == t;
        }
      }
      Key(b[|b| - 1]) + 1
  }

  /** In an ordered buffer without key `k`, everything from the first entry not below `k` onwards lies above `k`. */
  lemma SuffixAbove(b: seq<Slot>, n: nat, k: int)
    requires Sorted(b) && n <= |b| && !Contains(b, k)
    requires n < |b| ==> Key(b[n]) >= k
    ensures forall t :: t in b[n..] ==> Key(t) > k
  {
    forall t | t in b[n..] ensures Key(t) > k {
      var j :| 0 <= j < |b[n..]| && b[n..][j] == t;
      assert b[n + j] == t;
      assert Key(b[n]) <= Key(t);
      assert t in b;
    }
  }
}

=== FILE: conduit.dfy ===
/**
 * The application side of a connection as the protocol sees it: the input
 * that `conn_input` hands out. The rest of the conduit (sockets, output
 * buffering) is not part of this model.
 */
module Conduit {
  import opened Packets

  /**
   * One event of the application's input: some bytes, a moment where nothing
   * is available (`conn_input` returns 0), or the end of the stream (-1).
   */
  datatype Input = Bytes(data: seq<byte>) | NoData | EndOfInput

  /** All the bytes a queue of input events holds, in order. */
  function Flatten(q: seq<Input>): seq<byte>
  {
    if q == [] then []
    else Carried(q[0]) + Flatten(q[1..])
  }

  /** The bytes a single `conn_input` result carries. */
  function Carried(r: Input): seq<byte>
  {
    if r.Bytes? then r.data else []
  }

  /**
   * `conn_input(c, buf, max)`: takes the next event. Bytes beyond `max` stay
   * queued for the next call; an empty queue or an empty read yields 0.
   */
  function ConnInput(q: seq<Input>, max: nat): (r: (Input, seq<Input>))
    requires max > 0
    ensures r.0.Bytes? ==> 0 < |r.0.data| <= max
    ensures r.0.EndOfInput? <==> q != [] && q[0].EndOfInput?
  {
    if q == [] then (NoData, [])
    else match q[0]
      case NoData => (NoData, q[1..])
      case EndOfInput => (EndOfInput, q[1..])
      case Bytes(d) =>
        if d == [] then (NoData, q[1..])
        else if |d| <= max then (Bytes(d), q[1..])
        else (Bytes(d[..max]), [Bytes(d[max..])] + q[1..])
  }

  /** `conn_input` neither loses nor repeats a byte: what it hands out, then what stays queued, is what was queued. */
  lemma ConnInputConserves(q: seq<Input>, max: nat)
    requires max > 0
    ensures var r := ConnInput(q, max);
      Flatten(q) == Carried(r.0) + Flatten(r.1)
  {
    if q != [] && q[0].Bytes? && |q[0].data| > max {
      var d := q[0].data;
      var rest := [Bytes(d[max..])] + q[1..];
      assert rest[1..] == q[1..];
      assert Flatten(rest) == d[max..] + Flatten(q[1..]);
      calc {
        Flatten(q);
        d + Flatten(q[1..]);
        { assert d == d[..max] + d[max..]; }
        d[..max] + (d[max..] + Flatten(q[1..]));
      }
    }
  }

  /** A `conn_input` call that returns something, data or -1, consumes input: bytes or an event. */
  lemma ConnInputProgress(q: seq<Input>, max: nat)
    requires max > 0
    ensures var r := ConnInput(q, max);
      !r.0.NoData? ==> |Flatten(r.1)| + |r.1| < |Flatten(q)| + |q|
  {
    ConnInputConserves(q, max);
  }

  /**
   * How many `conn_input` calls return something, data or -1, before one
   * returns 0.
   */
  function Reads(q: seq<Input>): nat
    decreases |Flatten(q)| + |q|
  {
    ConnInputProgress(q, MaxPayload);
    var r := ConnInput(q, MaxPayload);
    if r.0.NoData? then 0 else 1 + Reads(r.1)
  }
}

=== FILE: invariants.dfy ===
/**
 * What a live session keeps true between calls, stated over plain values so
 * that it can be reasoned about apart from the objects: the send side (what
 * sits in the send buffer relative to `sndnxt` and to what was sent) and the
 * receive side (the receive buffer and the stream handed to the application
 * relative to `rcvnxt` and `rcvdone`).
 */
module Invariants {
  import opened Packets
  import opened Buffers
  import opened Protocol

  /** Every send-buffer entry lies below `sndnxt` and holds a packet that has been sent. */
  ghost predicate SendInvariant(b: seq<Slot>, sndnxt: nat, sent: seq<Packet>)
  {
    && sndnxt >= 1
    && Sorted(b)
    && forall t :: t in b ==> Key(t) < sndnxt && t.packet in sent
  }

  /** The first `k` segments handed out are those numbered 1 to `k`, in that order, none of them a terminal marker. */
  ghost predicate InOrder(d: seq<Packet>, k: int)
  {
    && 0 <= k <= |d|
    && forall i :: 0 <= i < k ==> d[i].seqno == i + 1 && !IsTerminal(d[i])
  }

  /**
   * In-order, exactly-once delivery. Until the end of the stream, the
   * application has received exactly segments 1 to `rcvnxt - 1`, in order,
   * and everything still buffered lies above `rcvnxt`. Once `rcvdone` is set,
   * the terminal marker heads the receive buffer, everything before it was
   * handed out once and in order, and after that only the marker itself is
   * ever handed out again.
   */
  ghost predicate ReceiveInvariant(b: seq<Slot>, rcvnxt: nat, rcvdone: bool, delivered: seq<Packet>)
  {
    && rcvnxt >= 1
    && Sorted(b)
    && (!rcvdone ==>
          && |delivered| == rcvnxt - 1
          && InOrder(delivered, |delivered|)
          && forall t :: t in b ==> Key(t) > rcvnxt)
    && (rcvdone ==>
          && b != []
          && IsTerminal(b[0].packet)
          && 1 <= Key(b[0]) < rcvnxt
          && Key(b[0]) <= |delivered|
          && InOrder(delivered, Key(b[0]) - 1)
          && forall i :: Key(b[0]) - 1 <= i < |delivered| ==> delivered[i] == b[0].packet)
  }

  /**
   * A delivery pass outside an in-order arrival keeps the receive invariant:
   * before the end of the stream it hands out nothing and changes nothing;
   * after it, it hands out the terminal marker once more and nothing else.
   */
  lemma IdleOutput(b: seq<Slot>, rcvnxt: nat, rcvdone: bool, delivered: seq<Packet>)
    requires ReceiveInvariant(b, rcvnxt, rcvdone, delivered)
    ensures var d := Deliver(b, rcvnxt);
      && ReceiveInvariant(d.rest, rcvnxt, rcvdone || d.done, delivered + d.out)
      && d.rest == b
      && (!rcvdone ==> d.out == [] && !d.done)
      && (rcvdone ==> d.out == [b[0].packet] && d.done)
  {
    if b != [] {
      assert b[0] in b;
    }
  }

  /**
   * The in-order arrival of segment `lo` (the current `rcvnxt`): it is
   * buffered, `rcvnxt` moves to `hi`, the first number from `lo` up that is
   * not buffered, and the delivery pass that follows keeps the invariant:
   * segments `lo` to `hi - 1` are handed out in order, or those up to the
   * terminal marker if one lies among them.
   */
  lemma InOrderArrival(b: seq<Slot>, lo: nat, hi: nat, delivered: seq<Packet>, s: Slot)
    requires ReceiveInvariant(b, lo, false, delivered)
    requires Key(s) == lo
    requires lo < hi
    requires forall k :: lo <= k < hi ==> Contains(Insert(b, s), k)
    requires !Contains(Insert(b, s), hi)
    ensures var d := Deliver(Insert(b, s), hi);
      ReceiveInvariant(d.rest, hi, d.done, delivered + d.out)
  {
    var b' := Insert(b, s);
    assert forall t :: t in b' ==> Key(t) >= lo;
    RunDelivered(b', lo, hi, delivered);
  }

  /**
   * A delivery pass up to `hi` over an ordered buffer that holds every
   * number of `[lo, hi)`, nothing below `lo` and not `hi`, appended to a
   * stream of segments 1 to `lo - 1`, keeps the receive invariant.
   */
  lemma RunDelivered(b: seq<Slot>, lo: nat, hi: nat, delivered: seq<Packet>)
    requires Sorted(b)
    requires 1 <= lo < hi
    requires forall t :: t in b ==> Key(t) >= lo
    requires forall k :: lo <= k < hi ==> Contains(b, k)
    requires !Contains(b, hi)
    requires |delivered| == lo - 1 && InOrder(delivered, lo - 1)
    ensures var d := Deliver(b, hi);
      ReceiveInvariant(d.rest, hi, d.done, delivered + d.out)
  {
    DeliverRun(b, lo, hi);
    DeliverEnds(b, hi);
    DeliverKeepsOrder(b, hi);
    var d := Deliver(b, hi);
    if d.done {
      RunEnds(delivered, d.out, d.rest, lo, hi);
    } else {
      RunContinues(delivered, d.out, d.rest, lo, hi);
    }
  }

  /** A pass that handed out segments `lo` to `hi - 1`, none terminal, leaving only entries above `hi`. */
  lemma RunContinues(delivered: seq<Packet>, out: seq<Packet>, rest: seq<Slot>, lo: nat, hi: nat)
    requires 1 <= lo < hi
    requires |delivered| == lo - 1 && InOrder(delivered, lo - 1)
    requires |out| == hi - lo
    requires forall i :: 0 <= i < |out| ==> out[i].seqno == lo + i
    requires forall i :: 0 <= i < |out| - 1 ==> !IsTerminal(out[i])
    requires out == [] || !IsTerminal(out[|out| - 1])
    requires Sorted(rest) && forall t :: t in rest ==> Key(t) > hi
    ensures ReceiveInvariant(rest, hi, false, delivered + out)
  {
    StreamContinues(delivered, out, lo);
  }

  /** A pass that stopped at the terminal marker, the last segment it handed out, which heads what remains. */
  lemma RunEnds(delivered: seq<Packet>, out: seq<Packet>, rest: seq<Slot>, lo: nat, hi: nat)
    requires 1 <= lo
    requires |delivered| == lo - 1 && InOrder(delivered, lo - 1)
    requires out != []
    requires forall i :: 0 <= i < |out| ==> out[i].seqno == lo + i
    requires forall i :: 0 <= i < |out| - 1 ==> !IsTerminal(out[i])
    requires IsTerminal(out[|out| - 1])
    requires Sorted(rest) && rest != [] && rest[0].packet == out[|out| - 1] && Key(rest[0]) < hi
    ensures ReceiveInvariant(rest, hi, true, delivered + out)
  {
    StreamEnds(delivered, out, lo);
  }

  /** Appending segments numbered on from `lo` to an in-order stream of `lo - 1` segments, none terminal. */
  lemma StreamContinues(delivered: seq<Packet>, out: seq<Packet>, lo: nat)
    requires |delivered| == lo - 1 && InOrder(delivered, lo - 1)
    requires forall i :: 0 <= i < |out| ==> out[i].seqno == lo + i && !IsTerminal(out[i])
    ensures InOrder(delivered + out, |delivered + out|)
  {
    var del := delivered + out;
    forall i | 0 <= i < |del| ensures del[i].seqno == i + 1 && !IsTerminal(del[i]) {
      if i >= |delivered| {
        assert del[i] == out[i - |delivered|];
      }
    }
  }

  /** Appending segments numbered on from `lo` whose last one, and only that one, is the terminal marker. */
  lemma StreamEnds(delivered: seq<Packet>, out: seq<Packet>, lo: nat)
    requires |delivered| == lo - 1 && InOrder(delivered, lo - 1)
    requires out != []
    requires forall i :: 0 <= i < |out| ==> out[i].seqno == lo + i
    requires forall i :: 0 <= i < |out| - 1 ==> !IsTerminal(out[i])
    ensures var del := delivered + out;
      && InOrder(del, |del| - 1)
      && del[|del| - 1] == out[|out| - 1]
  {
    var del := delivered + out;
    forall i | 0 <= i < |del| - 1 ensures del[i].seqno == i + 1 && !IsTerminal(del[i]) {
      if i >= |delivered| {
        assert del[i] == out[i - |delivered|];
      }
    }
  }

  /**
   * Sending one segment numbered `sndnxt`, buffered and recorded as sent,
   * keeps the send invariant with `sndnxt` one higher. Its number is not yet
   * buffered and lies above every buffered one, so `buffer_insert` puts it
   * at the end.
   */
  lemma SendOne(b: seq<Slot>, sndnxt: nat, sent: seq<Packet>, p: Packet, now: int)
    requires SendInvariant(b, sndnxt, sent)
    requires p.seqno == sndnxt
    ensures Sorted(b) && !Contains(b, sndnxt)
    ensures Insert(b, Slot(p, now)) == b + [Slot(p, now)]
    ensures SendInvariant(b + [Slot(p, now)], sndnxt + 1, sent + [p])
  {
    InsertLast(b, Slot(p, now));
    var r := b + [Slot(p, now)];
    forall i, j | 0 <= i < j < |r| ensures Key(r[i]) < Key(r[j]) {
      if j == |b| {
        assert r[i] in b;
      }
    }
  }

  /** A retransmission sweep keeps the send invariant: the entries keep their packets, and what it resends is added to what was sent. */
  lemma RefreshKeepsSend(b: seq<Slot>, sndnxt: nat, sent: seq<Packet>, now: int, timeout: int)
    requires SendInvariant(b, sndnxt, sent)
    ensures SendInvariant(Refresh(b, now, timeout), sndnxt, sent + Due(b, now, timeout))
  {
    var r := Refresh(b, now, timeout);
    forall t | t in r ensures Key(t) < sndnxt && t.packet in sent + Due(b, now, timeout) {
      var i :| 0 <= i < |r| && r[i] == t;
      assert b[i] in b;
    }
  }
}

=== FILE: loops.dfy ===
/**
 * The loops of `reliable.c`, each run over the state it works on and proved
 * to compute what the corresponding function of `Protocol` specifies: the
 * window fill of `rel_read`, the delivery pass of `rel_output`, the
 * retransmission sweep of `rel_timer` and the `rcvnxt` coalescing loop of
 * `rel_recvpkt`. The session methods run them on their fields.
 */
module Loops {
  import opened Options
  import opened Packets
  import opened Buffers
  import opened Conduit
  import opened Protocol
  import opened Invariants

  /**
   * The `rel_read` loop: while `next <= limit`, reads up to 500 bytes;
   * nothing available stops it; otherwise (the end of input also setting
   * `done`) a segment numbered `next` is built, inserted into the send
   * buffer stamped `now`, sent, and `next` moves on.
   */
  method FillLoop(sum: Checksum, now: int, buf0: seq<Slot>, log0: seq<Packet>, q0: seq<Input>, next0: nat, limit: int, done0: bool)
    returns (buf: seq<Slot>, log: seq<Packet>, q: seq<Input>, next: nat, done: bool)
    requires SendInvariant(buf0, next0, log0)
    ensures Sends(FillWindow(sum, q0, next0, limit, done0), now, buf0, log0, next0, buf, log, q, next, done)
    ensures SendInvariant(buf, next, log)
  {
    buf, log, q, next, done := buf0, log0, q0, next0, done0;
    ghost var segs: seq<Packet> := [];
    while next <= limit
      invariant Sends(Fill(segs, q, done), now, buf0, log0, next0, buf, log, q, next, done)
      invariant SendInvariant(buf, next, log)
      invariant FillWindow(sum, q0, next0, limit, done0) == Continue(segs, FillWindow(sum, q, next, limit, done))
      decreases limit - next
    {
      FillAdvance(sum, q, next, limit, done, segs);
      var r := ConnInput(q, MaxPayload);
      q := r.1;
      if r.0.NoData? {
        return;
      }
      if r.0.EndOfInput? {
        done := true;
      }
      var p := Segment(sum, next, Carried(r.0));
      SendsMore(segs, p, now, buf0, log0, next0, buf, log, q, next, done);
      buf, log := Transmit(buf, log, next, p, now);
      segs := segs + [p];
      next := next + 1;
    }
    FillHalt(sum, q, next, limit, done, segs);
  }

  /**
   * One send of the `rel_read` loop: the segment numbered `next` is put into
   * the send buffer stamped `now` (`buffer_insert`, which places it last, its
   * number lying above every buffered one) and sent (`conn_sendpkt`).
   */
  method Transmit(buf0: seq<Slot>, log0: seq<Packet>, next: nat, p: Packet, now: int)
    returns (buf: seq<Slot>, log: seq<Packet>)
    requires SendInvariant(buf0, next, log0)
    requires p.seqno == next
    ensures buf == buf0 + [Slot(p, now)] && log == log0 + [p]
    ensures SendInvariant(buf, next + 1, log)
  {
    SendOne(buf0, next, log0, p, now);
    buf := Insert(buf0, Slot(p, now));
    log := log0 + [p];
  }

  /** Sending one more segment `p` extends what was sent by it. */
  lemma SendsMore(segs: seq<Packet>, p: Packet, now: int, buf0: seq<Slot>, log0: seq<Packet>, next0: nat,
                  buf: seq<Slot>, log: seq<Packet>, q: seq<Input>, next: nat, done: bool)
    requires Sends(Fill(segs, q, done), now, buf0, log0, next0, buf, log, q, next, done)
    ensures Sends(Fill(segs + [p], q, done), now, buf0, log0, next0, buf + [Slot(p, now)], log + [p], q, next + 1, done)
  {
    assert |Stamp(segs + [p], now)| == |segs| + 1;
    assert Stamp(segs + [p], now) == Stamp(segs, now) + [Slot(p, now)];
  }

  /**
   * The `rel_output` loop: while the first entry lies below `rcvnxt`, hands
   * it out; the terminal marker ends the pass and stays, any other entry is
   * removed first.
   */
  method DeliverLoop(b0: seq<Slot>, rcvnxt: int) returns (b: seq<Slot>, out: seq<Packet>, done: bool)
    requires Sorted(b0)
    ensures Delivery(out, b, done) == Deliver(b0, rcvnxt)
  {
    b, out, done := b0, [], false;
    var head := First(b);
    while head.Some? && Key(head.value) < rcvnxt
      invariant Sorted(b)
      invariant head == First(b)
      invariant Deliver(b0, rcvnxt) == Resume(out, Deliver(b, rcvnxt))
      decreases |b|
    {
      var slot := head.value;
      if IsTerminal(slot.packet) {
        out, done := out + [slot.packet], true;
        return;
      }
      DeliverStep(b0, rcvnxt, out, b);
      b := RemoveFirst(b);
      out := out + [slot.packet];
      head := First(b);
    }
    DeliverStop(b0, rcvnxt, out, b);
  }

  /** Handing out and removing an ordinary first entry below `rcvnxt` continues the pass. */
  lemma DeliverStep(b0: seq<Slot>, rcvnxt: int, out: seq<Packet>, b: seq<Slot>)
    requires b != [] && Key(b[0]) < rcvnxt && !IsTerminal(b[0].packet)
    requires Deliver(b0, rcvnxt) == Resume(out, Deliver(b, rcvnxt))
    ensures Deliver(b0, rcvnxt) == Resume(out + [b[0].packet], Deliver(b[1..], rcvnxt))
  {
    var d := Deliver(b[1..], rcvnxt);
    assert out + ([b[0].packet] + d.out) == (out + [b[0].packet]) + d.out;
  }

  /** A first entry not below `rcvnxt`, or none, ends the pass with nothing more handed out. */
  lemma DeliverStop(b0: seq<Slot>, rcvnxt: int, out: seq<Packet>, b: seq<Slot>)
    requires b == [] || Key(b[0]) >= rcvnxt
    requires Deliver(b0, rcvnxt) == Resume(out, Deliver(b, rcvnxt))
    ensures Deliver(b0, rcvnxt) == Delivery(out, b, false)
  {
    assert out + [] == out;
  }

  /**
   * The per-session sweep of `rel_timer`: walks the send buffer; an entry at
   * least `timeout` old at `now` is sent again as it is and restamped `now`.
   */
  method SweepLoop(b0: seq<Slot>, now: int, timeout: int) returns (b: seq<Slot>, resent: seq<Packet>)
    ensures b == Refresh(b0, now, timeout)
    ensures resent == Due(b0, now, timeout)
  {
    b, resent := b0, [];
    var i := 0;
    while i < |b|
      invariant 0 <= i <= |b0|
      invariant b == Refresh(b0[..i], now, timeout) + b0[i..]
      invariant resent == Due(b0[..i], now, timeout)
    {
      var slot := b[i];
      SweepStep(b0, i, now, timeout);
      Splice(Refresh(b0[..i], now, timeout), b0[i..], slot.(stamp := now));
      assert b0[i..][1..] == b0[i + 1..];
      if IsDue(slot, now, timeout) {
        resent := resent + [slot.packet];
        b := b[i := slot.(stamp := now)];
      }
      i := i + 1;
    }
    assert b0[..|b0|] == b0;
  }

  /** One more entry swept: it is restamped and resent exactly when it is due, and the entries before it are as the sweep left them. */
  lemma SweepStep(b0: seq<Slot>, i: nat, now: int, timeout: int)
    requires i < |b0|
    ensures var s := b0[i];
      && Refresh(b0[..i + 1], now, timeout) == Refresh(b0[..i], now, timeout) + [if IsDue(s, now, timeout) then s.(stamp := now) else s]
      && Due(b0[..i + 1], now, timeout) == Due(b0[..i], now, timeout) + (if IsDue(s, now, timeout) then [s.packet] else [])
  {
    assert b0[..i + 1][..i] == b0[..i];
  }

  /** Overwriting, or keeping, the first entry after a prefix `r`. */
  lemma Splice(r: seq<Slot>, rest: seq<Slot>, x: Slot)
    requires rest != []
    ensures (r + rest)[|r| := x] == (r + [x]) + rest[1..]
    ensures r + rest == (r + [rest[0]]) + rest[1..]
  {
  }

  /**
   * The coalescing loop of `rel_recvpkt`: from `lo`, steps past every
   * sequence number the receive buffer holds, ending at the least one from
   * `lo` up that it does not hold.
   */
  method Coalesce(b: seq<Slot>, lo: nat) returns (hi: nat)
    requires Sorted(b)
    ensures lo <= hi
    ensures forall k :: lo <= k < hi ==> Contains(b, k)
    ensures !Contains(b, hi)
  {
    hi := lo;
    while Contains(b, hi)
      invariant lo <= hi
      invariant forall k :: lo <= k < hi ==> Contains(b, k)
      decreases Upper(b) - hi
    {
      hi := hi + 1;
    }
  }
}

=== FILE: options.dfy ===
/** An optional value: a pointer that may be NULL. */
module Options {
  datatype Option<+T> = None | Some(value: T)
}

=== FILE: packets.dfy ===
/**
 * Wire segments of the protocol: the fields of `packet_t` / `struct ack_packet`
 * after byte-order conversion, the checksum stamped on them and the validation
 * the receiver applies.
 */
module Packets {

  newtype byte = x: int | 0 <= x < 256

  /** Size of an ack segment: cksum, len, ackno. */
  const AckLen: nat := 8
  /** Size of a data segment header: cksum, len, ackno, seqno. */
  const HeaderLen: nat := 12
  /** Most payload bytes a data segment carries. */
  const MaxPayload: nat := 500

  /**
   * A segment in host byte order. `len` is the declared length field; the
   * number of bytes that actually arrived is passed separately to the receiver.
   * Ack segments carry no sequence number on the wire; their `seqno` is 0 here.
   */
  datatype Packet = Packet(cksum: nat, len: nat, ackno: nat, seqno: nat, data: seq<byte>)

  /**
   * The Internet checksum of rlib, computed over the segment whose checksum
   * field is zero. Its code is not part of this model, so it is a parameter.
   */
  type Checksum = Packet -> nat

  /** The segment with its checksum field cleared, as it is checksummed and as the receiver keeps it. */
  function Zeroed(p: Packet): Packet
  {
    p.(cksum := 0)
  }

  /** A zero-payload data segment: the end-of-stream marker. */
  predicate IsTerminal(p: Packet)
  {
    p.len == HeaderLen
  }

  /** The receiver's validation: the length field matches the bytes received and the checksum matches. */
  predicate Accepts(sum: Checksum, p: Packet, n: nat)
  {
    n == p.len && p.cksum == sum(Zeroed(p))
  }

  /** `makeack`: a cumulative ack for everything below `rcvnxt`, which the peer's validation accepts. */
  function MakeAck(sum: Checksum, rcvnxt: nat): (a: Packet)
    ensures a.len == AckLen && a.ackno == rcvnxt && a.data == []
    ensures Accepts(sum, a, AckLen)
  {
    var z := Packet(0, AckLen, rcvnxt, 0, []);
    z.(cksum := sum(z))
  }

  /**
   * The data segment `rel_read` builds for sequence number `seqno`: the peer's
   * validation accepts it, and it is the terminal marker exactly when its
   * payload is empty. The ack number is left 0.
   */
  function Segment(sum: Checksum, seqno: nat, payload: seq<byte>): (p: Packet)
    ensures p.seqno == seqno && p.data == payload && p.len == HeaderLen + |payload|
    ensures Accepts(sum, p, p.len)
    ensures IsTerminal(p) <==> payload == []
  {
    var z := Packet(0, HeaderLen + |payload|, 0, seqno, payload);
    z.(cksum := sum(z))
  }
}

=== FILE: protocol.dfy ===
/**
 * The step-by-step work of the protocol's loops stated as functions: what
 * `rel_read` sends when it fills the window, what `rel_output` delivers, and
 * what one retransmission sweep resends and re-stamps.
 */
module Protocol {
  import opened Packets
  import opened Buffers
  import opened Conduit

  /** The outcome of filling the send window: the segments built, the input left, the final `snddone`. */
  datatype Fill = Fill(segs: seq<Packet>, rest: seq<Input>, done: bool)

  /** All payload bytes of a run of segments, in order. */
  function Payloads(segs: seq<Packet>): seq<byte>
  {
    if segs == [] then [] else segs[0].data + Payloads(segs[1..])
  }

  /** The send-buffer entries `rel_read` creates for the segments it sends at time `now`. */
  function Stamp(segs: seq<Packet>, now: int): (r: seq<Slot>)
    ensures |r| == |segs|
    ensures forall i :: 0 <= i < |segs| ==> r[i] == Slot(segs[i], now)
  {
    seq(|segs|, i requires 0 <= i < |segs| => Slot(segs[i], now))
  }

  /**
   * The `rel_read` loop from `next` while `next <= limit`: each round asks for
   * up to 500 bytes; 0 stops, -1 marks the stream done and still builds a
   * zero-payload segment, data builds a segment; every segment built takes
   * the next sequence number. Every segment lies in the window, is well
   * formed and carries a checksum the peer accepts. However many segments
   * it builds, the next sequence number ends at most one above `limit`.
   */
  function FillWindow(sum: Checksum, q: seq<Input>, next: nat, limit: int, done: bool): (r: Fill)
    ensures r.segs != [] ==> next + |r.segs| <= limit + 1
    decreases limit - next
  {
    if next > limit then Fill([], q, done)
    else
      var r := ConnInput(q, MaxPayload);
      if r.0.NoData? then Fill([], r.1, done)
      else
        var p := Segment(sum, next, Carried(r.0));
        var tail := FillWindow(sum, r.1, next + 1, limit, done || r.0.EndOfInput?);
        Fill([p] + tail.segs, tail.rest, tail.done)
  }

  /** Filling the window numbers the segments it sends consecutively from `next`. */
  lemma {:induction false} FillNumbered(sum: Checksum, q: seq<Input>, next: nat, limit: int, done: bool)
    ensures Numbered(FillWindow(sum, q, next, limit, done).segs, next)
    decreases limit - next
  {
    if next <= limit {
      var r := ConnInput(q, MaxPayload);
      if !r.0.NoData? {
        var p := Segment(sum, next, Carried(r.0));
        var tail := FillWindow(sum, r.1, next + 1, limit, done || r.0.EndOfInput?).segs;
        FillNumbered(sum, r.1, next + 1, limit, done || r.0.EndOfInput?);
        var segs := [p] + tail;
        assert FillWindow(sum, q, next, limit, done).segs == segs;
        forall i | 0 <= i < |segs| ensures segs[i].seqno == next + i {
          if i > 0 {
            assert segs[i] == tail[i - 1];
          }
        }
      }
    }
  }

  /** The segments of `segs` are numbered consecutively from `next`. */
  predicate Numbered(segs: seq<Packet>, next: int)
  {
    forall i :: 0 <= i < |segs| ==> segs[i].seqno == next + i
  }

  /**
   * Every segment sent while filling the window lies in the window (its
   * sequence number is at most `limit`), is well formed, carries at most 500
   * payload bytes and has a checksum the peer accepts.
   */
  lemma {:induction false} FillInWindow(sum: Checksum, q: seq<Input>, next: nat, limit: int, done: bool)
    ensures forall p :: p in FillWindow(sum, q, next, limit, done).segs ==>
      && p.seqno <= limit
      && p.len == HeaderLen + |p.data|
      && |p.data| <= MaxPayload
      && Accepts(sum, p, p.len)
    decreases limit - next
  {
    if next <= limit {
      var r := ConnInput(q, MaxPayload);
      if !r.0.NoData? {
        var p := Segment(sum, next, Carried(r.0));
        var tail := FillWindow(sum, r.1, next + 1, limit, done || r.0.EndOfInput?).segs;
        FillInWindow(sum, r.1, next + 1, limit, done || r.0.EndOfInput?);
        PrependSegment(p, tail);
      }
    }
  }

  function Min(a: int, b: int): int
  {
    if a <= b then a else b
  }

  /**
   * Filling the window sends as many segments as the window has room for, or
   * as many as `conn_input` can return before it returns 0, whichever is
   * fewer: a 0 stops the loop, data and -1 each make a segment and the loop
   * goes on.
   */
  lemma {:induction false} FillCount(sum: Checksum, q: seq<Input>, next: nat, limit: int, done: bool)
    ensures |FillWindow(sum, q, next, limit, done).segs| == if next > limit then 0 else Min(limit - next + 1, Reads(q))
    decreases limit - next
  {
    if next <= limit {
      var r := ConnInput(q, MaxPayload);
      if !r.0.NoData? {
        FillCount(sum, r.1, next + 1, limit, done || r.0.EndOfInput?);
      }
    }
  }

  /**
   * Sending the segments of the fill `f` at time `now` takes the send buffer,
   * the trace of sent packets and the next sequence number from `buf0`,
   * `log0`, `next0` to `buf`, `log`, `next`, and leaves the input `q` and
   * the end-of-input flag `done` as the fill ends them.
   */
  predicate Sends(f: Fill, now: int, buf0: seq<Slot>, log0: seq<Packet>, next0: nat,
                  buf: seq<Slot>, log: seq<Packet>, q: seq<Input>, next: nat, done: bool)
  {
    && buf == buf0 + Stamp(f.segs, now)
    && log == log0 + f.segs
    && next == next0 + |f.segs|
    && q == f.rest
    && done == f.done
  }

  /** A fill of which the segments `emitted` had already been built before it reached `f`. */
  function Continue(emitted: seq<Packet>, f: Fill): Fill
  {
    Fill(emitted + f.segs, f.rest, f.done)
  }

  /**
   * One round of the `rel_read` loop inside the window: no input ends the
   * fill with the input consumed; otherwise the segment numbered `next` is
   * built and the fill goes on from `next + 1`.
   */
  lemma FillAdvance(sum: Checksum, q: seq<Input>, next: nat, limit: int, done: bool, emitted: seq<Packet>)
    requires next <= limit
    ensures var r := ConnInput(q, MaxPayload);
      Continue(emitted, FillWindow(sum, q, next, limit, done))
      == if r.0.NoData? then Fill(emitted, r.1, done)
         else Continue(emitted + [Segment(sum, next, Carried(r.0))], FillWindow(sum, r.1, next + 1, limit, done || r.0.EndOfInput?))
  {
    var r := ConnInput(q, MaxPayload);
    if !r.0.NoData? {
      var p := Segment(sum, next, Carried(r.0));
      var tail := FillWindow(sum, r.1, next + 1, limit, done || r.0.EndOfInput?);
      assert emitted + ([p] + tail.segs) == (emitted + [p]) + tail.segs;
    } else {
      assert emitted + [] == emitted;
    }
  }

  /** Once the window is full the loop stops, leaving the input and `snddone` as they are. */
  lemma FillHalt(sum: Checksum, q: seq<Input>, next: nat, limit: int, done: bool, emitted: seq<Packet>)
    requires next > limit
    ensures Continue(emitted, FillWindow(sum, q, next, limit, done)) == Fill(emitted, q, done)
  {
    assert emitted + [] == emitted;
  }

  /** `snddone` ends up set exactly when it was set before or a terminal segment was built. */
  lemma {:induction false} FillDone(sum: Checksum, q: seq<Input>, next: nat, limit: int, done: bool)
    ensures var f := FillWindow(sum, q, next, limit, done);
      f.done <==> done || exists p :: p in f.segs && IsTerminal(p)
    decreases limit - next
  {
    if next <= limit {
      var r := ConnInput(q, MaxPayload);
      if !r.0.NoData? {
        var p := Segment(sum, next, Carried(r.0));
        var tail := FillWindow(sum, r.1, next + 1, limit, done || r.0.EndOfInput?);
        FillDone(sum, r.1, next + 1, limit, done || r.0.EndOfInput?);
        PrependSegment(p, tail.segs);
      }
    }
  }

  /** The sender neither loses nor repeats input: the payloads sent, then the input left, are the input it started from. */
  lemma {:induction false} FillConserves(sum: Checksum, q: seq<Input>, next: nat, limit: int, done: bool)
    ensures var f := FillWindow(sum, q, next, limit, done);
      Flatten(q) == Payloads(f.segs) + Flatten(f.rest)
    decreases limit - next
  {
    if next <= limit {
      var r := ConnInput(q, MaxPayload);
      if !r.0.NoData? {
        var payload := Carried(r.0);
        var p := Segment(sum, next, payload);
        var tail := FillWindow(sum, r.1, next + 1, limit, done || r.0.EndOfInput?);
        FillConserves(sum, r.1, next + 1, limit, done || r.0.EndOfInput?);
        ConnInputConserves(q, MaxPayload);
        PrependSegment(p, tail.segs);
        var f := FillWindow(sum, q, next, limit, done);
        assert f.segs == [p] + tail.segs && f.rest == tail.rest;
        calc {
          Flatten(q);
          payload + Flatten(r.1);
          payload + (Payloads(tail.segs) + Flatten(tail.rest));
          { AppendAssoc(payload, Payloads(tail.segs), Flatten(tail.rest)); }
          (payload + Payloads(tail.segs)) + Flatten(tail.rest);
          Payloads(f.segs) + Flatten(f.rest);
        }
      }
    }
  }

  lemma AppendAssoc(a: seq<byte>, b: seq<byte>, c: seq<byte>)
    ensures a + (b + c) == (a + b) + c
  {
  }

  /** Facts about a run of segments with one more segment in front. */
  lemma PrependSegment(p: Packet, segs: seq<Packet>)
    ensures forall x :: x in [p] + segs <==> x == p || x in segs
    ensures forall i :: 1 <= i < |segs| + 1 ==> ([p] + segs)[i] == segs[i - 1]
    ensures Payloads([p] + segs) == p.data + Payloads(segs)
  {
    assert ([p] + segs)[1..] == segs;
  }

  /** The outcome of a delivery pass: the segments handed out, the buffer left, whether the terminal marker was reached. */
  datatype Delivery = Delivery(out: seq<Packet>, rest: seq<Slot>, done: bool)

  /**
   * The `rel_output` loop: walks the buffer from the front while the entry's
   * sequence number is below `rcvnxt`, handing each out; an ordinary entry is
   * removed, the terminal marker is handed out, stays, and ends the pass.
   * What is handed out is a prefix of the buffer, all below `rcvnxt`.
   */
  function Deliver(b: seq<Slot>, rcvnxt: int): (d: Delivery)
    ensures |d.out| <= |b|
    ensures forall i :: 0 <= i < |d.out| ==> d.out[i] == b[i].packet && Key(b[i]) < rcvnxt
  {
    if b == [] || Key(b[0]) >= rcvnxt then Delivery([], b, false)
    else if IsTerminal(b[0].packet) then Delivery([b[0].packet], b, true)
    else
      var d := Deliver(b[1..], rcvnxt);
      var out := [b[0].packet] + d.out;
      assert forall i :: 1 <= i < |out| ==> out[i] == d.out[i - 1] && b[i] == b[1..][i - 1];
      Delivery(out, d.rest, d.done)
  }

  /** The outcome of a delivery pass of which `handed` had already gone out before it reached `d`. */
  function Resume(handed: seq<Packet>, d: Delivery): Delivery
  {
    Delivery(handed + d.out, d.rest, d.done)
  }

  /**
   * How a delivery pass ends: either at the terminal marker, which is the last
   * segment handed out and heads what remains, or at the first entry not
   * below `rcvnxt` (or the end), with every entry before it removed. No
   * segment before the last one handed out is a terminal marker.
   */
  lemma {:induction false} DeliverEnds(b: seq<Slot>, rcvnxt: int)
    ensures var d := Deliver(b, rcvnxt);
      && (forall i :: 0 <= i < |d.out| - 1 ==> !IsTerminal(d.out[i]))
      && (d.done ==> d.out != [] && IsTerminal(d.out[|d.out| - 1]) && d.rest == b[|d.out| - 1..])
      && (!d.done ==> d.rest == b[|d.out|..] && (d.out == [] || !IsTerminal(d.out[|d.out| - 1]))
                      && (d.rest == [] || Key(d.rest[0]) >= rcvnxt))
  {
    if b != [] && Key(b[0]) < rcvnxt && !IsTerminal(b[0].packet) {
      DeliverEnds(b[1..], rcvnxt);
      var d := Deliver(b[1..], rcvnxt);
      var out := [b[0].packet] + d.out;
      assert Deliver(b, rcvnxt) == Delivery(out, d.rest, d.done);
      assert forall i :: 1 <= i < |out| ==> out[i] == d.out[i - 1];
      if d.done {
        assert b[1..][|d.out| - 1..] == b[|d.out|..];
      } else {
        assert b[1..][|d.out|..] == b[|d.out| + 1..];
      }
    }
  }

  /** A delivery pass over an ordered buffer leaves an ordered buffer. */
  lemma {:induction false} DeliverKeepsOrder(b: seq<Slot>, rcvnxt: int)
    requires Sorted(b)
    ensures Sorted(Deliver(b, rcvnxt).rest)
  {
    if b != [] && Key(b[0]) < rcvnxt && !IsTerminal(b[0].packet) {
      SortedTail(b);
      DeliverKeepsOrder(b[1..], rcvnxt);
    }
  }

  /** What a pass hands out from an ordered buffer is in strictly increasing sequence order. */
  lemma DeliverIncreasing(b: seq<Slot>, rcvnxt: int)
    requires Sorted(b)
    ensures Increasing(Deliver(b, rcvnxt).out)
  {
    var d := Deliver(b, rcvnxt);
    forall i, j | 0 <= i < j < |d.out| ensures d.out[i].seqno < d.out[j].seqno {
      assert Key(b[i]) < Key(b[j]);
    }
  }

  /** On an ordered buffer, a delivery pass hands segments out in strictly increasing sequence order and leaves every later entry in place. */
  lemma DeliverInOrder(b: seq<Slot>, rcvnxt: int)
    requires Sorted(b)
    ensures var d := Deliver(b, rcvnxt);
      && Increasing(d.out)
      && (forall t :: t in b && Key(t) >= rcvnxt ==> t in d.rest)
  {
    var d := Deliver(b, rcvnxt);
    DeliverIncreasing(b, rcvnxt);
    DeliverEnds(b, rcvnxt);
    var cut := if d.done then |d.out| - 1 else |d.out|;
    assert d.rest == b[cut..];
    forall t | t in b && Key(t) >= rcvnxt ensures t in d.rest {
      var j :| 0 <= j < |b| && b[j] == t;
      assert j >= |d.out|;
      assert d.rest[j - cut] == t;
    }
  }

  /**
   * A delivery pass over an ordered buffer that holds every key of `[lo, hi)`
   * and nothing below `lo`, with `hi` absent: the i-th segment handed out has
   * sequence number `lo + i`; unless the terminal marker stopped it, all of
   * `[lo, hi)` is handed out and every remaining key lies above `hi`; if it
   * stopped, the marker heads what remains.
   */
  lemma DeliverRun(b: seq<Slot>, lo: int, hi: int)
    requires Sorted(b)
    requires lo <= hi
    requires forall t :: t in b ==> Key(t) >= lo
    requires forall k :: lo <= k < hi ==> Contains(b, k)
    requires !Contains(b, hi)
    ensures var d := Deliver(b, hi);
      && (forall i :: 0 <= i < |d.out| ==> d.out[i].seqno == lo + i)
      && (!d.done ==> |d.out| == hi - lo && forall t :: t in d.rest ==> Key(t) > hi)
      && (d.done ==> d.rest != [] && d.rest[0].packet == d.out[|d.out| - 1] && Key(d.rest[0]) < hi)
  {
    var d := Deliver(b, hi);
    ContiguousRun(b, lo, hi);
    DeliverEnds(b, hi);
    if |d.out| > 0 {
      KeysFrom(b, lo, |d.out| - 1);
    }
    assert |d.out| <= hi - lo;
    if !d.done {
      assert |d.out| == hi - lo;
      SuffixAbove(b, |d.out|, hi);
    }
  }

  /** In an ordered buffer whose keys are at least `lo`, the i-th key is at least `lo + i`. */
  lemma {:induction false} KeysFrom(b: seq<Slot>, lo: int, i: nat)
    requires Sorted(b)
    requires forall t :: t in b ==> Key(t) >= lo
    requires i < |b|
    ensures Key(b[i]) >= lo + i
  {
    if i > 0 {
      KeysFrom(b, lo, i - 1);
      assert Key(b[i - 1]) < Key(b[i]);
    } else {
      assert b[0] in b;
    }
  }

  /** A send-buffer entry is due once at least `timeout` has passed since it was last sent. */
  predicate IsDue(s: Slot, now: int, timeout: int)
  {
    timeout <= now - s.stamp
  }

  /** The segments one sweep resends, in buffer order: exactly the due entries' packets, unchanged. */
  function Due(b: seq<Slot>, now: int, timeout: int): (r: seq<Packet>)
    ensures |r| <= |b|
    ensures forall p :: p in r <==> exists s :: s in b && s.packet == p && IsDue(s, now, timeout)
  {
    if b == [] then []
    else
      var init := b[..|b| - 1];
      var last := b[|b| - 1];
      assert forall s :: s in b <==> s in init || s == last by {
        assert b == init + [last];
      }
      var r := Due(init, now, timeout);
      if IsDue(last, now, timeout) then r + [last.packet] else r
  }

  /** Sequence numbers strictly increase along `ps`. */
  predicate Increasing(ps: seq<Packet>)
  {
    forall i, j :: 0 <= i < j < |ps| ==> ps[i].seqno < ps[j].seqno
  }

  /** On an ordered buffer, a sweep resends in strictly increasing sequence order. */
  lemma {:induction false} DueInOrder(b: seq<Slot>, now: int, timeout: int)
    requires Sorted(b)
    ensures Increasing(Due(b, now, timeout))
  {
    if b != [] {
      var init := b[..|b| - 1];
      var last := b[|b| - 1];
      assert Sorted(init);
      DueInOrder(init, now, timeout);
      var r := Due(init, now, timeout);
      forall p | p in r ensures p.seqno < last.packet.seqno {
        var s :| s in init && s.packet == p && IsDue(s, now, timeout);
        var j :| 0 <= j < |init| && init[j] == s;
        assert Key(b[j]) < Key(b[|b| - 1]);
      }
      if IsDue(last, now, timeout) {
        var r' := r + [last.packet];
        assert Due(b, now, timeout) == r';
        forall i, j | 0 <= i < j < |r'| ensures r'[i].seqno < r'[j].seqno {
          assert r'[i] == r[i] && r[i] in r;
          if j < |r| { assert r'[j] == r[j]; } else { assert r'[j] == last.packet; }
        }
      } else {
        assert Due(b, now, timeout) == r;
      }
    }
  }

  /**
   * The send buffer after one sweep: the same entries with the same packets
   * in the same order; a due entry's timestamp becomes `now`, any other keeps
   * its own.
   */
  function Refresh(b: seq<Slot>, now: int, timeout: int): (r: seq<Slot>)
    ensures |r| == |b|
    ensures forall i :: 0 <= i < |b| ==>
              && r[i].packet == b[i].packet
              && r[i].stamp == (if IsDue(b[i], now, timeout) then now else b[i].stamp)
    ensures Sorted(b) ==> Sorted(r)
  {
    if b == [] then []
    else
      var last := b[|b| - 1];
      var r := Refresh(b[..|b| - 1], now, timeout) + [if IsDue(last, now, timeout) then last.(stamp := now) else last];
      assert forall i :: 0 <= i < |b| - 1 ==> b[i] == b[..|b| - 1][i];
      r
  }
}

=== FILE: reliable.dfy ===
/**
 * The per-session state machine of `reliable.c` (`struct reliable_state` and
 * the entry points that update it in place) and the registry of live
 * sessions, `rel_list`.
 */
module Reliable {
  import opened Options
  import opened Packets
  import opened Buffers
  import opened Conduit
  import opened Protocol
  import opened Invariants
  import opened Loops

  /** The connection a session runs over (`conn_t *`), known only by identity. */
  type ConnId = nat

  /** The two settings `rel_create` copies out of `struct config_common`. */
  datatype Config = Config(timeout: int, window: int)

  /** No element occurs twice. */
  ghost predicate Distinct<T>(s: seq<T>)
  {
    forall i, j :: 0 <= i < j < |s| ==> s[i] != s[j]
  }

  /** Where `x` first occurs in `s`. */
  function IndexOf<T(==)>(s: seq<T>, x: T): (i: nat)
    requires x in s
    ensures i < |s| && s[i] == x && x !in s[..i]
  {
    if s[0] == x then 0
    else
      var i := 1 + IndexOf(s[1..], x);
      assert s[..i] == [s[0]] + s[1..][..i - 1];
      i
  }

  /** Unlinking `x` from a list: its first occurrence goes, the others stay in their order. */
  function Unlink<T(==)>(s: seq<T>, x: T): seq<T>
    requires x in s
  {
    var i := IndexOf(s, x);
    s[..i] + s[i + 1..]
  }

  /** Unlinking from a list without repetitions removes exactly `x`, keeps the others, and keeps it without repetitions. */
  lemma UnlinkDistinct<T>(s: seq<T>, x: T)
    requires x in s && Distinct(s)
    ensures Distinct(Unlink(s, x))
    ensures forall y :: y in Unlink(s, x) <==> y in s && y != x
    ensures |Unlink(s, x)| == |s| - 1
  {
    var i := IndexOf(s, x);
    var r := Unlink(s, x);
    assert |r| == |s| - 1;
    assert forall k :: 0 <= k < |r| ==> r[k] == s[if k < i then k else k + 1];
    forall a, b | 0 <= a < b < |r| ensures r[a] != r[b] {
      assert r[a] == s[if a < i then a else a + 1];
      assert r[b] == s[if b < i then b else b + 1];
    }
    forall y | y in s && y != x ensures y in r {
      var k :| 0 <= k < |s| && s[k] == y;
      assert k != i;
      assert r[if k < i then k else k - 1] == y;
    }
  }

  /** One session: `struct reliable_state`. */
  class Session {
    /** The connection `c`. */
    const conn: ConnId
    /** Retransmission timeout, as configured. */
    const timeout: int
    /** Window size, as configured. */
    const window: int

    /** Segments sent and not yet acknowledged, each with the time it was last sent. */
    var sendBuffer: seq<Slot>
    /** The acknowledgement number last received. */
    var snduna: nat
    /** The sequence number of the next segment to send. */
    var sndnxt: nat
    /** Set once the end of the input has been sent. */
    var snddone: bool
    /** Segments received and not yet handed to the application, each with its time of arrival. */
    var recvBuffer: seq<Slot>
    /** The sequence number of the next segment expected in order. */
    var rcvnxt: nat
    /** Set once the peer's terminal marker has been handed to the application. */
    var rcvdone: bool

    /** What `conn_input` returns, call after call. */
    var input: seq<Input>
    /** Every packet handed to `conn_sendpkt`, in order. */
    var sent: seq<Packet>
    /** Every buffered segment whose payload was handed to `conn_output`, in order. */
    var delivered: seq<Packet>
    /** Set when `rel_destroy` releases the session. */
    ghost var closed: bool

    /** The invariant of a live session. */
    ghost predicate Valid()
      reads this
    {
      && !closed
      && SendInvariant(sendBuffer, sndnxt, sent)
      && ReceiveInvariant(recvBuffer, rcvnxt, rcvdone, delivered)
    }

    /** The state `rel_create` sets up: nothing sent, nothing received, sequence numbers starting at 1. */
    predicate Initial()
      reads this
    {
      && snduna == 0 && sndnxt == 1 && !snddone && sendBuffer == []
      && rcvnxt == 1 && !rcvdone && recvBuffer == []
      && sent == [] && delivered == []
    }

    /** The teardown condition of `rel_recvpkt`: both streams ended and everything sent acknowledged. */
    predicate Finished()
      reads this
    {
      rcvdone && snddone && sndnxt == snduna
    }

    /** The session part of `rel_create`. */
    constructor (conn: ConnId, cfg: Config, input: seq<Input>)
      ensures this.conn == conn && timeout == cfg.timeout && window == cfg.window && this.input == input
      ensures Initial()
      ensures Valid()
    {
      this.conn := conn;
      timeout := cfg.timeout;
      window := cfg.window;
      sendBuffer := [];
      snduna := 0;
      sndnxt := 1;
      snddone := false;
      recvBuffer := [];
      rcvnxt := 1;
      rcvdone := false;
      this.input := input;
      sent := [];
      delivered := [];
      closed := false;
    }

    /** Nothing on the send side changes. */
    twostate predicate SendUnchanged()
      reads this
    {
      && sendBuffer == old(sendBuffer) && snduna == old(snduna) && sndnxt == old(sndnxt)
      && snddone == old(snddone) && input == old(input)
    }

    /** Nothing on the receive side changes. */
    twostate predicate ReceiveUnchanged()
      reads this
    {
      && recvBuffer == old(recvBuffer) && rcvnxt == old(rcvnxt)
      && rcvdone == old(rcvdone) && delivered == old(delivered)
    }

    /**
     * The effect of `rel_read` at time `now`: the window up to
     * `snduna + window` is filled from the input, the segments built are
     * sent and buffered stamped `now`, and nothing else changes.
     */
    twostate predicate Refilled(sum: Checksum, now: int)
      reads this
    {
      && Sends(FillWindow(sum, old(input), old(sndnxt), old(snduna) + window, old(snddone)), now,
               old(sendBuffer), old(sent), old(sndnxt), sendBuffer, sent, input, sndnxt, snddone)
      && snduna == old(snduna)
      && closed == old(closed)
      && ReceiveUnchanged()
    }

    /**
     * `rel_read`: fills the window. While `sndnxt <= snduna + window` it
     * takes up to 500 bytes of input; nothing available stops it; data or
     * the end of input (which also sets `snddone`) becomes a segment
     * numbered `sndnxt` that is buffered, stamped `now` and sent, and
     * `sndnxt` moves on.
     */
    method Read(sum: Checksum, now: int)
      requires Valid()
      modifies this
      ensures Valid()
      ensures Refilled(sum, now)
    {
      sendBuffer, sent, input, sndnxt, snddone := FillLoop(sum, now, sendBuffer, sent, input, sndnxt, snduna + window, snddone);
    }

    /**
     * The effect of `rel_output`: the delivery pass below `rcvnxt` hands its
     * segments to the application, leaves what it leaves in the receive
     * buffer and sets `rcvdone` if it reached the terminal marker.
     */
    twostate predicate HandedOut(d: Delivery)
      reads this
    {
      && recvBuffer == d.rest
      && delivered == old(delivered) + d.out
      && rcvdone == (old(rcvdone) || d.done)
      && rcvnxt == old(rcvnxt)
      && sent == old(sent)
      && closed == old(closed)
      && SendUnchanged()
    }

    /**
     * `rel_output`: hands out the receive buffer's entries below `rcvnxt`
     * from the front, removing each, until it reaches the terminal marker,
     * which is handed out, sets `rcvdone` and stays in the buffer.
     */
    method Output()
      requires Sorted(recvBuffer)
      modifies this
      ensures HandedOut(Deliver(old(recvBuffer), old(rcvnxt)))
      ensures old(Valid()) ==> Valid()
    {
      if Valid() {
        IdleOutput(recvBuffer, rcvnxt, rcvdone, delivered);
      }
      var rest, out, done := DeliverLoop(recvBuffer, rcvnxt);
      recvBuffer, delivered := rest, delivered + out;
      if done {
        rcvdone := true;
      }
    }

    /**
     * The effect of the per-session sweep of `rel_timer` at time `now`: the
     * due entries are resent and restamped, and nothing else changes.
     */
    twostate predicate Swept(now: int)
      reads this
    {
      && sendBuffer == Refresh(old(sendBuffer), now, timeout)
      && sent == old(sent) + Due(old(sendBuffer), now, timeout)
      && snduna == old(snduna) && sndnxt == old(sndnxt) && snddone == old(snddone) && input == old(input)
      && closed == old(closed)
      && ReceiveUnchanged()
    }

    /**
     * The per-session sweep of `rel_timer` at time `now`: every entry of the
     * send buffer whose last transmission is at least `timeout` old is sent
     * again, unchanged, and restamped `now`; the others keep their stamps.
     */
    method Retransmit(now: int)
      modifies this
      ensures Swept(now)
      ensures old(Valid()) ==> Valid()
    {
      if Valid() {
        RefreshKeepsSend(sendBuffer, sndnxt, sent, now, timeout);
      }
      var b, resent := SweepLoop(sendBuffer, now, timeout);
      sendBuffer, sent := b, sent + resent;
    }

    /** The effect of an acknowledgement carrying `ackno` (the ack branch of `rel_recvpkt`). */
    twostate predicate Acked(sum: Checksum, ackno: nat, now: int)
      reads this
    {
      && snduna == ackno
      && Sends(FillWindow(sum, old(input), old(sndnxt), ackno + window, old(snddone)), now,
               RemoveBelow(old(sendBuffer), ackno), old(sent), old(sndnxt), sendBuffer, sent, input, sndnxt, snddone)
      && ReceiveUnchanged()
    }

    /**
     * The effect of a data segment `pkt` (the data branch of `rel_recvpkt`).
     * After the end of the stream or beyond `rcvnxt + window`: nothing. Else
     * exactly one acknowledgement goes out, carrying the final `rcvnxt`; a
     * stale segment changes nothing else; a segment ahead of `rcvnxt` is
     * buffered unless its number already is; the segment numbered `rcvnxt`
     * is buffered, `rcvnxt` moves to the first number above it not buffered,
     * and a delivery pass follows.
     */
    twostate predicate Received(sum: Checksum, pkt: Packet, now: int)
      requires old(Valid())
      reads this
    {
      var s := pkt.seqno;
      var slot := Slot(Zeroed(pkt), now);
      && SendUnchanged()
      && if old(rcvdone) || s > old(rcvnxt) + window then
           sent == old(sent) && ReceiveUnchanged()
         else
           && sent == old(sent) + [MakeAck(sum, rcvnxt)]
           && if s < old(rcvnxt) then
                ReceiveUnchanged()
              else if s > old(rcvnxt) then
                && recvBuffer == (if Contains(old(recvBuffer), s) then old(recvBuffer) else Insert(old(recvBuffer), slot))
                && rcvnxt == old(rcvnxt) && rcvdone == old(rcvdone) && delivered == old(delivered)
              else
                var b := Insert(old(recvBuffer), slot);
                var d := Deliver(b, rcvnxt);
                && old(rcvnxt) < rcvnxt
                && (forall k :: old(rcvnxt) <= k < rcvnxt ==> Contains(b, k))
                && !Contains(b, rcvnxt)
                && recvBuffer == d.rest && delivered == old(delivered) + d.out && rcvdone == d.done
    }

    /** The ack branch of `rel_recvpkt`: `snduna` takes `ackno` as is, the acknowledged entries go, and the window is refilled. */
    method OnAck(sum: Checksum, ackno: nat, now: int)
      requires Valid()
      modifies this
      ensures Valid()
      ensures Acked(sum, ackno, now)
    {
      snduna := ackno;
      sendBuffer := RemoveBelow(sendBuffer, ackno);
      Read(sum, now);
    }

    /**
     * The effect of the in-order arrival of the entry `slot`: it is
     * buffered, `rcvnxt` moves to the first number above it not buffered,
     * a delivery pass follows, and the send side is untouched.
     */
    twostate predicate Arrived(slot: Slot)
      requires old(Valid()) && !old(rcvdone) && Key(slot) == old(rcvnxt)
      reads this
    {
      var b := Insert(old(recvBuffer), slot);
      var d := Deliver(b, rcvnxt);
      && old(rcvnxt) < rcvnxt
      && (forall k :: old(rcvnxt) <= k < rcvnxt ==> Contains(b, k))
      && !Contains(b, rcvnxt)
      && recvBuffer == d.rest && delivered == old(delivered) + d.out && rcvdone == d.done
      && sent == old(sent) && closed == old(closed)
      && SendUnchanged()
    }

    /**
     * The data branch of `rel_recvpkt` for the segment numbered `rcvnxt`:
     * it is inserted (it cannot be buffered already, every buffered entry
     * lying above `rcvnxt`), `rcvnxt` is advanced past every number the
     * buffer holds, and `rel_output` runs.
     */
    method Arrive(slot: Slot)
      requires Valid() && !rcvdone && Key(slot) == rcvnxt
      modifies this
      ensures Valid()
      ensures Arrived(slot)
    {
      recvBuffer := Insert(recvBuffer, slot);
      ghost var lo := rcvnxt;
      rcvnxt := Coalesce(recvBuffer, rcvnxt);
      InOrderArrival(old(recvBuffer), lo, rcvnxt, old(delivered), slot);
      Output();
    }

    /** The data branch of `rel_recvpkt`. */
    method OnData(sum: Checksum, pkt: Packet, now: int)
      requires Valid()
      modifies this
      ensures Valid()
      ensures Received(sum, pkt, now)
      ensures rcvnxt >= old(rcvnxt)
    {
      var s := pkt.seqno;
      if !rcvdone && s <= rcvnxt + window {
        if rcvnxt <= s {
          var slot := Slot(Zeroed(pkt), now);
          if s == rcvnxt {
            Arrive(slot);
          } else if !Contains(recvBuffer, s) {
            recvBuffer := Insert(recvBuffer, slot);
          }
        }
        sent := sent + [MakeAck(sum, rcvnxt)];
      }
    }

    /**
     * `rel_recvpkt`: a datagram of `n` bytes arrives. A wrong length or a
     * checksum mismatch drops it with no effect at all; a session that has
     * finished is destroyed; an 8-byte packet is an acknowledgement; any
     * other is a data segment.
     */
    method RecvPkt(reg: Registry, sum: Checksum, pkt: Packet, n: nat, now: int)
      requires Valid() && reg.Valid() && this in reg.sessions
      modifies this, reg
      ensures !Accepts(sum, pkt, n) ==> unchanged(this) && unchanged(reg)
      ensures Accepts(sum, pkt, n) && old(Finished()) ==>
        && closed && sendBuffer == [] && recvBuffer == [] && sent == old(sent) && delivered == old(delivered)
        && reg.Valid() && reg.sessions == Unlink(old(reg.sessions), this) && this !in reg.sessions
      ensures !(Accepts(sum, pkt, n) && old(Finished())) ==>
        && Valid() && reg.sessions == old(reg.sessions) && rcvnxt >= old(rcvnxt)
      ensures Accepts(sum, pkt, n) && !old(Finished()) && n == AckLen ==> Acked(sum, pkt.ackno, now)
      ensures Accepts(sum, pkt, n) && !old(Finished()) && n != AckLen ==> Received(sum, pkt, now)
    {
      if !Accepts(sum, pkt, n) {
        return;
      }
      if Finished() {
        reg.Destroy(this);
        return;
      }
      if n == AckLen {
        OnAck(sum, pkt.ackno, now);
      } else {
        OnData(sum, pkt, now);
      }
    }
  }

  /** The list of live sessions, `rel_list`, newest first. */
  class Registry {
    var sessions: seq<Session>

    ghost predicate Valid()
      reads this
    {
      Distinct(sessions)
    }

    constructor ()
      ensures sessions == [] && Valid()
    {
      sessions := [];
    }

    /**
     * `rel_create`: `c` is the connection passed in, `created` what
     * `conn_create` yields when none is. Without a connection the result is
     * NULL and the registry is unchanged; otherwise a session in its initial
     * state with the configured timeout and window is put at the front.
     */
    method Create(c: Option<ConnId>, created: Option<ConnId>, cfg: Config, input: seq<Input>) returns (r: Session?)
      requires Valid()
      modifies this
      ensures Valid()
      ensures r == null <==> c.None? && created.None?
      ensures r == null ==> sessions == old(sessions)
      ensures r != null ==>
        && fresh(r) && sessions == [r] + old(sessions)
        && r.Valid() && r.Initial()
        && r.conn == (if c.Some? then c.value else created.value)
        && r.timeout == cfg.timeout && r.window == cfg.window && r.input == input
    {
      var conn := c;
      if conn.None? {
        conn := created;
        if conn.None? {
          return null;
        }
      }
      r := new Session(conn.value, cfg, input);
      sessions := [r] + sessions;
    }

    /** `rel_destroy`: both buffers are cleared and the session is unlinked from the registry. */
    method Destroy(r: Session)
      requires Valid() && r in sessions
      modifies this, r`sendBuffer, r`recvBuffer, r`closed
      ensures Valid()
      ensures sessions == Unlink(old(sessions), r) && r !in sessions
      ensures r.sendBuffer == [] && r.recvBuffer == [] && r.closed
    {
      r.recvBuffer := [];
      r.sendBuffer := [];
      r.closed := true;
      UnlinkDistinct(sessions, r);
      sessions := Unlink(sessions, r);
    }

    /**
     * `rel_timer` as evidently intended: one pass over the registry, giving
     * every session its retransmission sweep once.
     */
    method Timer(now: int)
      requires Valid()
      modifies set s | s in sessions
      ensures forall s :: s in sessions ==> s.Swept(now) && (old(s.Valid()) ==> s.Valid())
    {
      var i := 0;
      while i < |sessions|
        invariant 0 <= i <= |sessions|
        invariant forall j :: 0 <= j < i ==> sessions[j].Swept(now) && (old(sessions[j].Valid()) ==> sessions[j].Valid())
        invariant forall j :: i <= j < |sessions| ==> unchanged(sessions[j])
      {
        sessions[i].Retransmit(now);
        i := i + 1;
      }
    }
  }

  /**
   * The outer loop of `rel_timer` as written, run for at most `fuel` rounds:
   * the cursor starts at the head of `list` and then always steps to the
   * head's successor, while each round sweeps the head. Returns the sessions
   * swept, in order, and whether the loop ended.
   */
  method TimerAsWritten(list: seq<Session>, fuel: nat) returns (swept: seq<Session>, ended: bool)
    ensures |list| >= 2 ==> !ended && |swept| == fuel && forall x :: x in swept ==> x == list[0]
    ensures |list| <= 1 && (list == [] || fuel > 0) ==> ended && swept == list
  {
    var cur: Option<Session> := if list == [] then None else Some(list[0]);
    swept := [];
    var rounds := 0;
    while cur.Some? && rounds < fuel
      invariant rounds <= fuel && |swept| == rounds
      invariant list == [] ==> swept == []
      invariant forall x :: x in swept ==> x == list[0]
      invariant |list| < 2 ==> rounds <= 1 && swept == list[..rounds]
      invariant cur.Some? <==> (list != [] && (rounds == 0 || |list| >= 2))
    {
      swept := swept + [list[0]];
      cur := if |list| >= 2 then Some(list[1]) else None;
      rounds := rounds + 1;
    }
    ended := cur.None?;
  }
}
